=== FILE: README.md ===
# Sign-up form and its save relay, modelled in Dafny

The system is a one-page sign-up form ("Sign up and get a gift voucher") and
the server route it posts to. This project models two parts of it:

- **The client form controller** (`components/form-component.tsx`). This
  covers the per-field validator, the submit guard and the two change
  handlers. It also covers the decisions the submit handler makes: which
  interests go to the relay, which campaign is chosen, which coupon requests
  go out, and which alert is shown.
- **The relay route** (`app/api/save/route.js`). This covers the ordered
  validation chain, the normalised log entry, the append-only in-memory log,
  the parameter list forwarded to Google Forms, and the JSON response.

Every operation is a pure function over immutable data. The network, the
clock, the file system and the environment are inputs:

- a reply from the relay or the coupon service is a parameter, with a `Threw`
  case for a `fetch` or `json()` that throws;
- `Date.now()` and `toISOString()` are the `now` and `timestamp` parameters;
- `process.env` is the `Relay.Config` record;
- whether the file write and the Google Forms fetch worked is the
  `Relay.SideOutcomes` parameter.

Modules:

- `Wrappers` defines `Option`.
- `Text` defines JavaScript's `\s` / `trim` whitespace set, `\d`, and `trim`.
- `Patterns` defines the server's regular expressions as predicates.
- `Form` defines the `FormData` record and `{ ...d, [f]: v }`.
- `FormValidation` defines `validateField` and `isFormValid`.
- `FormController` defines the state and the change handlers.
- `Submission` defines the submit handler's plan.
- `Session` covers sequences of user events and the state invariant.
- `Relay` defines the route.
- `ClientServer` feeds the client's post into the route and the route's reply
  back into the client.

### The client patterns are modelled as written

The client's regular expressions are JavaScript regex literals written with
doubled backslashes: `/^[A-Za-z\\s]+$/`, `/^[6-9]\\d{9}$/` and `/^\\d{6}$/`.
In a regex literal, `\\` is one literal backslash. So the literals mean:

- **Name**: letters and `\` only. A space is not allowed.
- **Mobile**: a digit 6..9, then `\`, then nine `d` characters.
- **PIN code**: exactly the string `\dddddd`.

The model takes them literally, as `FormValidation.Reading.AsWritten`. The
single-backslash reading is `Reading.Intended`, which matches the server's
patterns. Every client operation takes the reading as a parameter, and each
controller, plan and session property is proved for both readings. The
"## Findings" table lists the consequences.

### Behaviour the model follows

- **Interests**: one string, picked from one select. It is not a set of
  choices.
- **Campaign lookup**: uses the raw `interests` value. With "Other" selected
  this gives `C100184`, not the custom text.
- **Coupon request IDs**: the main coupon uses request ID `250000012` and the
  referrer coupon uses `250000013`.
- **Referrer coupon**: requested only after the main coupon call returned and
  parsed without throwing.
- **Submit guard**: looks only at name and mobile. An error in PIN code or
  referrer does not disable the button.
- **Email**: `validateField` never checks email; it falls into its default
  branch. The browser's own check of the `type="email"` input is not
  modelled (see "## Left out").
- **Email on the server**: tested as sent, untrimmed, once its trimmed form
  is not empty. The same holds for PIN code and referrer.

## Model

| member | source | states |
|---|---|---|
| Text.Trim | components/form-component.tsx:52 | `trim()` yields a contiguous slice of its input that starts and ends with a non-whitespace character, and it is empty exactly when the input is all JavaScript whitespace |
| Text.TrimStart | app/api/save/route.js:25 | dropping leading whitespace leaves a suffix, removes only whitespace, and stops at the first non-whitespace character |
| Text.TrimEnd | app/api/save/route.js:34 | dropping trailing whitespace leaves a prefix, removes only whitespace, and stops at the last non-whitespace character |
| Patterns.EmailPatternIsShape | app/api/save/route.js:27 | the email pattern accepts exactly the strings with no whitespace, exactly one `@` that is not first, and a `.` inside the domain with text on both sides |
| Patterns.WhitespaceNeverMatches | app/api/save/route.js:20-44 | no server pattern (mobile, email, PIN code) accepts a string that contains whitespace anywhere |
| Form.Set | components/form-component.tsx:79 | the spread update `{ ...prev, [name]: value }` sets the named field and leaves the other seven fields unchanged |
| FormValidation.ValidateField | components/form-component.tsx:49-68 | name: "Full Name is required" iff blank after trim; otherwise "Full Name can only contain letters and spaces" iff the name pattern fails, and no error otherwise. Mobile: "Mobile number is required" iff empty (untrimmed); otherwise "Enter valid 10-digit mobile number starting with 6-9" iff the mobile pattern fails. referredBy: no error iff empty or matching, and any error is the mobile message. pinCode: no error iff empty or matching, and any error is "Enter a valid 6-digit PIN code". Email, interests, ageGroup and occupation: never an error |
| FormValidation.FormValidIff | components/form-component.tsx:99-105 | the guard holds iff name and mobile both have no error, iff the name is not blank and both patterns match. The explicit trim test adds nothing beyond the validator |
| FormValidation.GuardIgnoresOptionalFields | components/form-component.tsx:99-105 | changing any field other than name or mobile never changes the guard's verdict |
| FormValidation.MobileRejectsEveryTenDigitNumber | components/form-component.tsx:55-61 | as written, every ten-character mobile or referrer value, "9876543210" included, gets "Enter valid 10-digit mobile number…" |
| FormValidation.IntendedMobileAgreesWithServer | components/form-component.tsx:55-61 | read with single backslashes, the client accepts a mobile exactly when the server's `^[6-9]\d{9}$` does, and a referrer when it is empty or the server pattern accepts it |
| FormValidation.NameWithSpaceRejectedAsWritten | components/form-component.tsx:51-54 | as written, any non-blank name that contains a space, "John Smith" included, gets "Full Name can only contain letters and spaces" |
| FormValidation.IntendedNameAcceptsLettersAndSpaces | components/form-component.tsx:51-54 | read with single backslashes, a name has no error exactly when it is not blank and consists of ASCII letters and whitespace |
| FormValidation.PinRejectsEveryPinCodeAsWritten | components/form-component.tsx:62-64 | as written, every six-digit PIN code is reported invalid |
| FormValidation.IntendedPinAgreesWithServer | components/form-component.tsx:62-64 | read with single backslashes, the client accepts a PIN code exactly when it is empty or the server's `^\d{6}$` accepts it |
| FormController.HandleInputChange | components/form-component.tsx:70-83 | a field change stores the value and that value's validator result for that field only; all other data, errors and flags stay. A custom-interest change stores only the custom text and validates nothing |
| FormController.HandleSelectChange | components/form-component.tsx:85-97 | stores the value and its validator result for that field. On interests, the "Other" flag becomes value == "Other", and the custom text is cleared unless "Other" is chosen. Other selects leave both alone |
| FormController.SubmitDisabled | components/form-component.tsx:417 | the button is disabled iff a submission is in flight or the validator reports an error on name or mobile |
| Session.StepKeepsInv | components/form-component.tsx:70-207 | every event the rendered form can raise keeps the invariant: each stored error is the validator's verdict on the field's current value, the "Other" flag tracks interests, the custom text is empty unless "Other" is chosen, and no submission is left in flight |
| Session.RunKeepsInv | components/form-component.tsx:70-97 | the invariant holds after any sequence of such events |
| Session.ReachableStates | components/form-component.tsx:33-47 | from the initial state, every reachable state keeps the invariant. The button is then disabled exactly when the form is invalid. With "Other" selected the custom text is sent as the interests; otherwise the form data goes out unchanged |
| Session.MobileStaysShort | components/form-component.tsx:251-262 | the mobile the form holds never exceeds the input's `maxLength` of ten characters, whatever events happen |
| Session.AsWrittenNeverSubmits | components/form-component.tsx:55-58 | as written, no session from the initial state ever passes the guard: the button stays disabled and submitting sends nothing |
| Submission.CampaignLookup | components/form-component.tsx:114-119 | the four listed interests map to their campaigns. Any other value, including "" and a custom interest, gets the default `C100183` |
| Submission.Outbound | components/form-component.tsx:124-125 | the data sent equals the form data, except that interests "Other" is replaced by the custom text |
| Submission.HasReferrer | components/form-component.tsx:167 | a referrer coupon is wanted exactly when referredBy is not blank |
| Submission.CouponAlert | components/form-component.tsx:189-200 | the alert starts with "Form submitted successfully! Your coupon code is: " exactly when the reply is ok and carries a code, and then ends in that code. Otherwise it starts with "Coupon issuance failed: " and ends in the response message, or in "No coupon code received" when there is none |
| Submission.CouponPlan | components/form-component.tsx:145-187 | one or two coupon posts. The first is for the submitter's mobile with request ID `250000012`; the second is for the referrer with `250000013`. All are for the raw interests' campaign on channel `WEB` and program `81` |
| Submission.ReferrerCouponIff | components/form-component.tsx:163-167 | the referrer coupon is requested exactly when the main coupon reply parsed and referredBy is not blank |
| Submission.CouponPlanAlert | components/form-component.tsx:189-203 | a thrown main or referrer coupon call gives the network alert. Otherwise the main coupon's reply decides the alert |
| Submission.Submit | components/form-component.tsx:107-207 | an invalid form does nothing. A valid one posts to the relay first and ends with isSubmitting false and an alert. Coupon posts follow exactly when the relay answered with success, they are exactly the coupon plan, and there are at most three requests. After relay success the alert is the one the coupon replies decide (`CouponPlanAlert`) |
| Submission.NoCouponWithoutRelaySuccess | components/form-component.tsx:128-142 | an invalid form, a relay that threw, or a relay reply with success false issues no coupon request |
| Submission.CouponsAfterRelaySuccess | components/form-component.tsx:138-152 | after relay success every request after the relay post is a coupon for the raw interests' campaign, on the fixed channel and program |
| Submission.CouponsDifferOnlyInIdAndMobile | components/form-component.tsx:145-174 | the two coupon payloads differ only in request ID and mobile, and their request IDs differ |
| Submission.RelayFailureAlerts | components/form-component.tsx:138-142 | a relay that threw gives the network alert. A reply with success false gives "Submission failed: " followed by its error |
| Relay.Filled | app/api/save/route.js:25 | `x && x.trim() !== ""` holds exactly when the field is present and not blank |
| Relay.FirstFailureSpec | app/api/save/route.js:15-44 | the first failing check is reported, and no failure exactly when every check passes |
| Relay.ValidateIsFirstFailure | app/api/save/route.js:15-44 | the route's if-chain answers with the message of the first failing check of the ordered list: presence, mobile, email, PIN code, referrer |
| Relay.MissingFieldsIff | app/api/save/route.js:15-17 | "Missing required fields" exactly when name or mobile is absent or "". Name is checked only for presence, so any present name behaves like " " |
| Relay.BadMobileIff | app/api/save/route.js:20-23 | with name and mobile present, "Invalid mobile number format" exactly when the mobile fails `^[6-9]\d{9}$` |
| Relay.AcceptedBody | app/api/save/route.js:15-44 | a body with name present, a matching mobile, and each optional field absent, empty or matching passes all checks |
| Relay.OptionalFieldsTestedUntrimmed | app/api/save/route.js:25-44 | blank optional fields are never checked. A non-blank email that contains whitespace anywhere, surrounding spaces included, is rejected |
| Relay.MakeEntry | app/api/save/route.js:47-58 | the entry keeps name and mobile as sent, each optional field as sent or "" when absent, and the given id and timestamp |
| Relay.ForwardedFrom | app/api/save/route.js:88-93 | the optional fields selected for appending are forwarded ones, in strictly increasing append order |
| Relay.ForwardedFromComplete | app/api/save/route.js:88-93 | every forwarded optional field is selected |
| Relay.ForwardedFields | app/api/save/route.js:86-93 | the appended fields are name, mobile, then forwarded optional fields, all forwarded and strictly ascending in source order |
| Relay.ForwardedFieldsComplete | app/api/save/route.js:86-93 | a field is among the appended ones exactly when both its value and its entry id are set and non-empty |
| Relay.ForwardParams | app/api/save/route.js:85-93 | name and mobile come first; every appended field is forwarded, under the key `entry.<its entry id>` with its value as sent; and the fields are in strictly increasing source order: name, mobile, email, occupation, interests, ageGroup, pinCode, referredBy |
| Relay.ForwardParamsComplete | app/api/save/route.js:82-93 | a field gets an append exactly when both its value and its entry id are set and non-empty |
| Relay.Handle | app/api/save/route.js:8-115 | a body that is not JSON, or is JSON `null`, makes the handler throw before validating and gives 500 "Internal server error". Success holds exactly when validation passes, and a failure is 400 with the first failing message, the log untouched and nothing forwarded. On success: 200 `{ success: true }`, exactly one entry appended with earlier entries unchanged, the whole log written, and a forward exactly when configured. That forward posts `ForwardParams` of the body to the form's `formResponse` URL |
| Relay.SideStepsNeverDecide | app/api/save/route.js:63-108 | whether the file write or the forward worked never changes the response or the log. Both failures are caught and only logged, so this holds by construction of `Handle`, which never reads them |
| ClientServer.ToRequest | components/form-component.tsx:125-131 | the JSON body the route reads carries every form field as a present string |
| ClientServer.AsWrittenNeverReachesCoupons | components/form-component.tsx:55-58 | as written, a form the guard lets through carries an eleven-character mobile. The route rejects it, nothing is logged, and no coupon is ever requested |
| ClientServer.IntendedPassesRoute | app/api/save/route.js:15-44 | read with single backslashes, a form the guard accepts, with no PIN or referrer error and an email the route accepts, passes every server check |
| ClientServer.IntendedReachesCoupons | components/form-component.tsx:128-156 | read with single backslashes, such a form is logged by the route and the main coupon is requested |
| ClientServer.EmptyNameRejectedTwice | app/api/save/route.js:15-17 | an empty name is stopped by the client guard. The route, if reached, would also answer 400 "Missing required fields" |

## Left out

- Rendering: the JSX, styles, logo and headings are not modelled. The
  thank-you view and the page shell are left out too; the form never shows
  the thank-you view. Only which change events the rendered inputs raise,
  and the `maxLength` limits on the mobile, PIN and referrer inputs
  (lines 262, 387 and 409), are modelled, in `Session.Wired`.
- The network: the relay, coupon and Google Forms calls are not modelled.
  Their replies are parameters, and a thrown call is a `Threw` reply.
- The coupon service's HTTP status: it appears only as the `ok` flag. The
  relay's HTTP status is never read by the client and is not an input there.
- Console logging and `alert`: neither is modelled as I/O. The alert is the
  `alert` string of the outcome.
- The environment: `process.env` is the `Config` record.
- The clock: `Date.now()` and `new Date().toISOString()` are the `now` and
  `timestamp` parameters.
- The file system: `fs.writeFileSync` is modelled only as the snapshot the
  handler would write. Whether the write worked is a parameter.
- `URLSearchParams` percent-encoding and the request body's serialisation:
  the model keeps the ordered `(key, value)` pairs.
- React update batching and the asynchronous interleaving of `handleSubmit`
  with further input: each handler is one sequential step. The isSubmitting
  true phase during the awaits is not observable between steps.
- Concurrency on the shared `userData` array across requests: requests are
  handled one at a time.
- JSON values that are not strings (numbers, arrays, objects in the body):
  each body field is a present string or absent. `!x` on a non-string value
  and `.trim()` on one are out of scope. A top-level JSON `null` is the
  `Unparseable` request, since destructuring it throws. Any other top-level
  value that is not an object reads as a body with every field absent.
- Prototype-chain lookups in `campaignMap` (for example an interests value of
  "constructor"): the map is modelled as its four own keys.
- The unused `errors` keys in the JSX (`errors.email`, `errors.interests`) are
  always None. They follow from `FormValidation.ValidateField`'s default
  branch and are not modelled separately.
- The browser's `type="email"` check before the submit event (line 274 of
  components/form-component.tsx): not modelled, because it is the browser's
  behaviour and not the component's. `Session.Wired` lets every submit
  through, so the model over-approximates which submits reach
  `handleSubmit`.
- Text.Trim: states that the result is a trimmed slice of the input, without
  the lengths of the dropped prefix and suffix. TrimStart and TrimEnd state
  those.

## Findings

| source | as written | input that shows it | evidently intended | confidence | as-written member | corrected member |
|---|---|---|---|---|---|---|
| components/form-component.tsx:57 | `/^[6-9]\\d{9}$/` in a regex literal matches a digit 6..9, a backslash and nine `d` characters | "9876543210" is reported "Enter valid 10-digit mobile number starting with 6-9"; the same holds for referredBy at line 60 | `^[6-9]\d{9}$`, as the server writes it at app/api/save/route.js:20 | high, not executed | FormValidation.MobileRejectsEveryTenDigitNumber | FormValidation.IntendedMobileAgreesWithServer |
| components/form-component.tsx:53 | `/^[A-Za-z\\s]+$/` allows letters and backslash but no space | "John Smith" is reported "Full Name can only contain letters and spaces" | `^[A-Za-z\s]+$`, letters and whitespace, as the message says | high, not executed | FormValidation.NameWithSpaceRejectedAsWritten | FormValidation.IntendedNameAcceptsLettersAndSpaces |
| components/form-component.tsx:63 | `/^\\d{6}$/` matches only the string `\dddddd` | "560001" is reported "Enter a valid 6-digit PIN code" | `^\d{6}$`, as the server writes it at app/api/save/route.js:35 | high, not executed | FormValidation.PinRejectsEveryPinCodeAsWritten | FormValidation.IntendedPinAgreesWithServer |
| components/form-component.tsx:57 | the client guard wants an eleven-character mobile, while the mobile input takes at most ten characters (`maxLength={10}`, line 262) and the server accepts only ten-character mobiles | no session ever gets past the guard: the submit button stays disabled and nothing is sent, so no coupon is ever issued; a client that did post such a form would be rejected with "Invalid mobile number format" | both sides agree on `^[6-9]\d{9}$` | high, not executed | Session.AsWrittenNeverSubmits | ClientServer.IntendedReachesCoupons |

=== FILE: client_server.dfy ===
/** The client's submit plan fed with the server route's own reply: the
    client posts every `FormData` key as a JSON string, and reads back
    `success` and `error` (an absent error prints as "undefined"). */
module ClientServer {
  import opened Wrappers
  import opened Text
  import opened Patterns
  import opened Form
  import opened FormValidation
  import opened FormController
  import Submission
  import Relay

  /** `JSON.stringify(dataToSend)` as the route reads it back. */
  function ToRequest(d: FormData): (r: Relay.Request)
    ensures r.Json? && forall f :: Relay.FieldOf(r.body, f) == Some(Get(d, f))
  {
    Relay.Json(Relay.Body(Some(d.name), Some(d.mobile), Some(d.email), Some(d.occupation),
                          Some(d.interests), Some(d.ageGroup), Some(d.pinCode), Some(d.referredBy)))
  }

  function ReplyOf(r: Relay.Response): Submission.RelayReply {
    Submission.RelayAnswered(r.success, r.error.GetOr("undefined"))
  }

  /** One submit against the real route: the route's log afterwards (it is
      reached only when the client's guard lets the form through) and the
      client's plan given the route's reply. */
  function RoundTrip(p: Reading, s: FormState, cfg: Relay.Config, log: seq<Relay.UserEntry>, now: int,
                     timestamp: string, sides: Relay.SideOutcomes,
                     main: Submission.CouponReply, referrer: Submission.CouponReply): (seq<Relay.UserEntry>, Submission.Outcome)
  {
    var h := Relay.Handle(cfg, log, now, timestamp, ToRequest(Submission.Outbound(s)), sides);
    (if IsFormValid(p, s.data) then h.log else log, Submission.Submit(p, s, ReplyOf(h.response), main, referrer))
  }

  /** With the client patterns as written, every form the submit guard lets
      through carries an eleven-character mobile, which the route rejects:
      nothing is logged and no coupon is ever requested. */
  lemma AsWrittenNeverReachesCoupons(s: FormState, cfg: Relay.Config, log: seq<Relay.UserEntry>, now: int,
                                     timestamp: string, sides: Relay.SideOutcomes,
                                     main: Submission.CouponReply, referrer: Submission.CouponReply)
    ensures var (log', o) := RoundTrip(AsWritten, s, cfg, log, now, timestamp, sides, main, referrer);
            log' == log && |o.requests| <= 1
  {
    var d := Submission.Outbound(s);
    var h := Relay.Handle(cfg, log, now, timestamp, ToRequest(d), sides);
    var o := Submission.Submit(AsWritten, s, ReplyOf(h.response), main, referrer);
    if IsFormValid(AsWritten, s.data) {
      FormValidIff(AsWritten, s.data);
      assert d.name == s.data.name && d.mobile == s.data.mobile;
      assert d.name != [];
      assert !IsMobile(d.mobile);
      assert Relay.Validate(ToRequest(d).body) == Some(Relay.BadMobile);
      assert !h.response.success && h.log == log;
    }
    assert |o.requests| <= 1;
  }

  /** With the single-escaped patterns, what the client lets through with
      no PIN or referrer error, and with an email the route accepts, passes
      every check of the route. */
  lemma IntendedPassesRoute(d: FormData)
    ensures IsFormValid(Intended, d) && ValidateField(Intended, PinCode, d.pinCode) == None &&
            ValidateField(Intended, ReferredBy, d.referredBy) == None &&
            (IsBlank(d.email) || MatchesEmail(d.email)) ==>
              Relay.Validate(ToRequest(d).body) == None
  {
    if IsFormValid(Intended, d) && ValidateField(Intended, PinCode, d.pinCode) == None &&
       ValidateField(Intended, ReferredBy, d.referredBy) == None && (IsBlank(d.email) || MatchesEmail(d.email)) {
      FormValidIff(Intended, d);
      IntendedMobileAgreesWithServer(d.mobile);
      IntendedMobileAgreesWithServer(d.referredBy);
      IntendedPinAgreesWithServer(d.pinCode);
      Relay.AcceptedBody(ToRequest(d).body);
    }
  }

  /** With the single-escaped patterns, a form the guard lets through whose
      PIN code and referrer show no error and whose email the route accepts
      is logged, and the main coupon is requested. */
  lemma IntendedReachesCoupons(s: FormState, cfg: Relay.Config, log: seq<Relay.UserEntry>, now: int,
                               timestamp: string, sides: Relay.SideOutcomes,
                               main: Submission.CouponReply, referrer: Submission.CouponReply)
    ensures IsFormValid(Intended, s.data) && ValidateField(Intended, PinCode, s.data.pinCode) == None &&
            ValidateField(Intended, ReferredBy, s.data.referredBy) == None &&
            (IsBlank(s.data.email) || MatchesEmail(s.data.email)) ==>
              var (log', o) := RoundTrip(Intended, s, cfg, log, now, timestamp, sides, main, referrer);
              |log'| == |log| + 1 && |o.requests| >= 2
  {
    if IsFormValid(Intended, s.data) && ValidateField(Intended, PinCode, s.data.pinCode) == None &&
       ValidateField(Intended, ReferredBy, s.data.referredBy) == None &&
       (IsBlank(s.data.email) || MatchesEmail(s.data.email)) {
      var d := Submission.Outbound(s);
      assert forall f | f != Interests :: Get(d, f) == Get(s.data, f);
      assert d.name == s.data.name && d.mobile == s.data.mobile && d.email == s.data.email;
      assert d.pinCode == s.data.pinCode && d.referredBy == s.data.referredBy;
      assert IsFormValid(Intended, d);
      IntendedPassesRoute(d);
      var h := Relay.Handle(cfg, log, now, timestamp, ToRequest(d), sides);
      assert h.response.success;
      var o := Submission.Submit(Intended, s, ReplyOf(h.response), main, referrer);
      assert ReplyOf(h.response).success;
    }
  }

  /** An empty name is stopped twice: the client's guard sends nothing, and
      the route, were it reached, answers 400 "Missing required fields". */
  lemma EmptyNameRejectedTwice(p: Reading, s: FormState, cfg: Relay.Config, log: seq<Relay.UserEntry>, now: int,
                               timestamp: string, sides: Relay.SideOutcomes,
                               relay: Submission.RelayReply, main: Submission.CouponReply, referrer: Submission.CouponReply)
    requires s.data.name == ""
    ensures Submission.Submit(p, s, relay, main, referrer).requests == []
    ensures Relay.Handle(cfg, log, now, timestamp, ToRequest(s.data), sides).response ==
              Relay.Response(400, false, Some(Relay.MissingFields))
  {
  }
}

=== FILE: form.dfy ===
/** The client's `FormData` record: eight string fields, all "" initially.
    Interests is one string (one option of a single-select), not a set. */
module Form {

  datatype Field = Name | Mobile | Email | Interests | AgeGroup | Occupation | PinCode | ReferredBy

  datatype FormData = FormData(
    name: string,
    mobile: string,
    email: string,
    interests: string,
    ageGroup: string,
    occupation: string,
    pinCode: string,
    referredBy: string)

  const Empty := FormData("", "", "", "", "", "", "", "")

  /** `formData[f]` */
  function Get(d: FormData, f: Field): string {
    match f
    case Name => d.name
    case Mobile => d.mobile
    case Email => d.email
    case Interests => d.interests
    case AgeGroup => d.ageGroup
    case Occupation => d.occupation
    case PinCode => d.pinCode
    case ReferredBy => d.referredBy
  }

  /** `{ ...d, [f]: v }`: field `f` reads `v` afterwards and every other
      field reads as before. */
  function Set(d: FormData, f: Field, v: string): (r: FormData)
    ensures Get(r, f) == v
    ensures forall g | g != f :: Get(r, g) == Get(d, g)
  {
    match f
    case Name => d.(name := v)
    case Mobile => d.(mobile := v)
    case Email => d.(email := v)
    case Interests => d.(interests := v)
    case AgeGroup => d.(ageGroup := v)
    case Occupation => d.(occupation := v)
    case PinCode => d.(pinCode := v)
    case ReferredBy => d.(referredBy := v)
  }
}

=== FILE: form_controller.dfy ===
/** The client form's state and its two event handlers, `handleInputChange`
    and `handleSelectChange` (components/form-component.tsx), each one
    sequential step over an immutable record. */
module FormController {
  import opened Wrappers
  import opened Form
  import opened FormValidation

  /** The component's `useState` hooks. `errors` maps a field to what the
      validator last said about it; a key set to None is JavaScript's
      `{ [f]: undefined }`. */
  datatype FormState = FormState(
    data: FormData,
    errors: map<Field, Option<string>>,
    isSubmitting: bool,
    otherSelected: bool,
    customInterest: string)

  const Initial := FormState(Empty, map[], false, false, "")

  /** The `name` attribute of the input that fired a change event. */
  datatype InputName = FieldInput(field: Field) | CustomInterestInput

  /** `r` differs from `s` at most in field `f` of the data and in the
      error entry of `f`. */
  predicate OnlyFieldChanged(s: FormState, r: FormState, f: Field) {
    && (forall g | g != f :: Get(r.data, g) == Get(s.data, g))
    && (forall g | g != f :: (g in r.errors <==> g in s.errors))
    && (forall g | g != f && g in s.errors :: r.errors[g] == s.errors[g])
  }

  /** `handleInputChange`: a change of field `f` stores the value and its
      fresh validation result; every other field and error entry, and all
      other state, stay as they were. A change of the custom-interest box
      stores only that text and validates nothing. */
  function HandleInputChange(p: Reading, s: FormState, name: InputName, v: string): (r: FormState)
    ensures name == CustomInterestInput ==>
              r.data == s.data && r.errors == s.errors && r.customInterest == v &&
              r.isSubmitting == s.isSubmitting && r.otherSelected == s.otherSelected
    ensures name.FieldInput? ==>
              && Get(r.data, name.field) == v
              && name.field in r.errors && r.errors[name.field] == ValidateField(p, name.field, v)
              && OnlyFieldChanged(s, r, name.field)
              && r.isSubmitting == s.isSubmitting && r.otherSelected == s.otherSelected
              && r.customInterest == s.customInterest
  {
    match name
    case CustomInterestInput => s.(customInterest := v)
    case FieldInput(f) =>
      s.(data := Set(s.data, f, v), errors := s.errors[f := ValidateField(p, f, v)])
  }

  /** `handleSelectChange`: like an input change, and on the interests
      select it also records whether "Other" is chosen and clears the custom
      interest unless "Other" is chosen. */
  function HandleSelectChange(p: Reading, s: FormState, f: Field, v: string): (r: FormState)
    ensures Get(r.data, f) == v
    ensures f in r.errors && r.errors[f] == ValidateField(p, f, v)
    ensures OnlyFieldChanged(s, r, f)
    ensures r.isSubmitting == s.isSubmitting
    ensures f == Interests ==> (r.otherSelected <==> v == "Other")
    ensures f == Interests && v != "Other" ==> r.customInterest == ""
    ensures f == Interests && v == "Other" ==> r.customInterest == s.customInterest
    ensures f != Interests ==> r.otherSelected == s.otherSelected && r.customInterest == s.customInterest
  {
    var s1 := s.(data := Set(s.data, f, v));
    var s2 :=
      if f == Interests then
        s1.(otherSelected := v == "Other",
            customInterest := if v != "Other" then "" else s1.customInterest)
      else s1;
    s2.(errors := s2.errors[f := ValidateField(p, f, v)])
  }

  /** The submit button's `disabled` attribute. */
  function SubmitDisabled(p: Reading, s: FormState): (r: bool)
    ensures r <==> s.isSubmitting || ValidateField(p, Name, s.data.name).Some? ||
                   ValidateField(p, Mobile, s.data.mobile).Some?
  {
    FormValidIff(p, s.data);
    !IsFormValid(p, s.data) || s.isSubmitting
  }

  /** Every error entry is what the validator says of the field's current
      value: the handlers always update a field and its error together. */
  predicate ErrorsCurrent(p: Reading, s: FormState) {
    forall f | f in s.errors :: s.errors[f] == ValidateField(p, f, Get(s.data, f))
  }

  /** The "Other" flag tracks the interests field, and the custom interest
      is empty whenever "Other" is not chosen. */
  predicate InterestsConsistent(s: FormState) {
    && (s.otherSelected <==> s.data.interests == "Other")
    && (!s.otherSelected ==> s.customInterest == "")
  }
}

=== FILE: form_validation.dfy ===
/** The client's per-field validator `validateField` and the submit guard
    `isFormValid` (components/form-component.tsx).

    The client's patterns are written with doubled backslashes inside regular
    expression literals, where `\\` is a literal backslash and the following
    `s` or `d` a literal letter. `Reading.AsWritten` follows that text;
    `Reading.Intended` is the single-backslash reading the server uses. Every
    member takes the reading as a parameter, so each property below is proved
    for the code as written and for the corrected patterns alike. */
module FormValidation {
  import opened Wrappers
  import opened Text
  import opened Patterns
  import opened Form

  datatype Reading = AsWritten | Intended

  const NameRequired := "Full Name is required"
  const NameInvalid := "Full Name can only contain letters and spaces"
  const MobileRequired := "Mobile number is required"
  const MobileInvalid := "Enter valid 10-digit mobile number starting with 6-9"
  const PinInvalid := "Enter a valid 6-digit PIN code"

  /** `[A-Za-z\\s]` as written: ASCII letters and the backslash (the `s` is
      already among the letters, and a space is not in the class). */
  predicate NameCharAsWritten(c: char) {
    IsAsciiLetter(c) || c == '\\'
  }

  /** `^[A-Za-z\\s]+$` */
  predicate NameFormat(p: Reading, s: string) {
    |s| > 0 &&
    match p
    case AsWritten => forall i | 0 <= i < |s| :: NameCharAsWritten(s[i])
    case Intended => forall i | 0 <= i < |s| :: IsAsciiLetter(s[i]) || IsWs(s[i])
  }

  /** `^[6-9]\\d{9}$` as written matches one of 6..9, a backslash and nine
      letters `d`: eleven characters. */
  predicate MobileFormat(p: Reading, s: string) {
    match p
    case AsWritten =>
      |s| == 11 && '6' <= s[0] <= '9' && s[1] == '\\' && forall i | 2 <= i < 11 :: s[i] == 'd'
    case Intended => IsMobile(s)
  }

  /** `^\\d{6}$` as written matches only the seven characters `\dddddd`. */
  predicate PinFormat(p: Reading, s: string) {
    match p
    case AsWritten => s == "\\dddddd"
    case Intended => IsPinCode(s)
  }

  /** `validateField(name, value)`: None is `undefined`, i.e. no error.
      Name is required after trimming, mobile is required without trimming,
      referredBy and pinCode are optional, and email, interests, ageGroup and
      occupation fall into the default branch and are never checked. */
  function ValidateField(p: Reading, f: Field, v: string): (r: Option<string>)
    ensures f == Name ==> (r == Some(NameRequired) <==> IsBlank(v))
    ensures f == Name && !IsBlank(v) ==> (r == None <==> NameFormat(p, v))
    ensures f == Name && !IsBlank(v) && !NameFormat(p, v) ==> r == Some(NameInvalid)
    ensures f == Mobile ==> (r == Some(MobileRequired) <==> v == [])
    ensures f == Mobile && v != [] ==> (r == None <==> MobileFormat(p, v))
    ensures f == Mobile && v != [] && !MobileFormat(p, v) ==> r == Some(MobileInvalid)
    ensures f == ReferredBy && r.Some? ==> r == Some(MobileInvalid)
    ensures f == PinCode && r.Some? ==> r == Some(PinInvalid)
    ensures f == ReferredBy ==> (r == None <==> v == [] || MobileFormat(p, v))
    ensures f == PinCode ==> (r == None <==> v == [] || PinFormat(p, v))
    ensures f in {Email, Interests, AgeGroup, Occupation} ==> r == None
  {
    match f
    case Name =>
      if Trim(v) == "" then Some(NameRequired)
      else if !NameFormat(p, v) then Some(NameInvalid)
      else None
    case Mobile =>
      if v == "" then Some(MobileRequired)
      else if !MobileFormat(p, v) then Some(MobileInvalid)
      else None
    case ReferredBy =>
      if v != "" && !MobileFormat(p, v) then Some(MobileInvalid) else None
    case PinCode =>
      if v != "" && !PinFormat(p, v) then Some(PinInvalid) else None
    case _ => None
  }

  /** `isFormValid()` */
  function IsFormValid(p: Reading, d: FormData): bool {
    Trim(d.name) != "" && ValidateField(p, Name, d.name).None? &&
    Trim(d.mobile) != "" && ValidateField(p, Mobile, d.mobile).None?
  }

  /** The guard holds exactly when name and mobile carry no error: the
      explicit trim tests are implied by the validator, and nothing about
      email, pinCode, referredBy or the other fields is consulted. */
  lemma FormValidIff(p: Reading, d: FormData)
    ensures IsFormValid(p, d) <==>
              ValidateField(p, Name, d.name) == None && ValidateField(p, Mobile, d.mobile) == None
    ensures IsFormValid(p, d) <==> !IsBlank(d.name) && NameFormat(p, d.name) && MobileFormat(p, d.mobile)
  {
    MobileFormatIsNotBlank(p, d.mobile);
  }

  lemma MobileFormatIsNotBlank(p: Reading, v: string)
    ensures MobileFormat(p, v) ==> !IsBlank(v)
  {
    if MobileFormat(p, v) {
      assert !IsWs(v[0]);
    }
  }

  /** Errors in the optional fields do not hold the submit button back: the
      guard reads only name and mobile. */
  lemma GuardIgnoresOptionalFields(p: Reading, d: FormData, f: Field, v: string)
    requires f != Name && f != Mobile
    ensures IsFormValid(p, Set(d, f, v)) == IsFormValid(p, d)
  {
    assert Get(Set(d, f, v), Name) == d.name;
    assert Get(Set(d, f, v), Mobile) == d.mobile;
  }

  // ---- The double-escaped client patterns against the single-escaped ones ----

  /** As written, no ten-character value passes the client mobile check, so
      "9876543210" is reported invalid. */
  lemma MobileRejectsEveryTenDigitNumber(v: string)
    requires |v| == 10
    ensures ValidateField(AsWritten, Mobile, v) == Some(MobileInvalid)
    ensures ValidateField(AsWritten, ReferredBy, v) == Some(MobileInvalid)
  {
  }

  /** With single backslashes the client mobile and referredBy checks accept
      exactly what the server's `^[6-9]\d{9}$` accepts. */
  lemma IntendedMobileAgreesWithServer(v: string)
    ensures ValidateField(Intended, Mobile, v) == None <==> IsMobile(v)
    ensures ValidateField(Intended, ReferredBy, v) == None <==> v == [] || IsMobile(v)
    ensures ValidateField(Intended, Mobile, "9876543210") == None
  {
    assert IsMobile("9876543210");
  }

  /** As written, a full name with a space in it, "John Smith", is rejected
      although the message promises that spaces are allowed. */
  lemma NameWithSpaceRejectedAsWritten(v: string, k: int)
    requires 0 <= k < |v| && v[k] == ' ' && !IsBlank(v)
    ensures ValidateField(AsWritten, Name, v) == Some(NameInvalid)
    ensures ValidateField(AsWritten, Name, "John Smith") == Some(NameInvalid)
  {
    assert !NameCharAsWritten("John Smith"[4]);
    assert !IsBlank("John Smith") by { assert !IsWs("John Smith"[0]); }
  }

  /** With single backslashes a name is accepted exactly when it is
      non-blank and made of ASCII letters and whitespace. */
  lemma IntendedNameAcceptsLettersAndSpaces(v: string)
    ensures ValidateField(Intended, Name, v) == None <==>
              !IsBlank(v) && forall i | 0 <= i < |v| :: IsAsciiLetter(v[i]) || IsWs(v[i])
    ensures ValidateField(Intended, Name, "John Smith") == None
  {
    var js := "John Smith";
    assert !IsBlank(js) by { assert !IsWs(js[0]); }
    assert forall i | 0 <= i < |js| :: IsAsciiLetter(js[i]) || js[i] == ' ';
    assert NameFormat(Intended, js);
  }

  /** As written, every six-digit PIN code, "560001" among them, is reported
      invalid. */
  lemma PinRejectsEveryPinCodeAsWritten(v: string)
    requires IsPinCode(v)
    ensures ValidateField(AsWritten, PinCode, v) == Some(PinInvalid)
  {
  }

  /** With single backslashes the client PIN check accepts "" and exactly
      the strings the server's `^\d{6}$` accepts. */
  lemma IntendedPinAgreesWithServer(v: string)
    ensures ValidateField(Intended, PinCode, v) == None <==> v == [] || IsPinCode(v)
    ensures ValidateField(Intended, PinCode, "560001") == None
  {
  }
}

=== FILE: patterns.dfy ===
/** The server's regular expressions, each stated as a predicate over the
    whole string (every pattern is anchored with `^` and `$` and carries no
    flags, so `$` matches only at the very end). */
module Patterns {
  import opened Text

  /** `^[6-9]\d{9}$`: an Indian mobile number, ten ASCII digits led by 6..9. */
  predicate IsMobile(s: string) {
    |s| == 10 && '6' <= s[0] <= '9' && forall i | 1 <= i < 10 :: IsDigit(s[i])
  }

  /** `^\d{6}$`: a PIN code, six ASCII digits. */
  predicate IsPinCode(s: string) {
    |s| == 6 && forall i | 0 <= i < 6 :: IsDigit(s[i])
  }

  /** A character of the class `[^\s@]`. */
  predicate IsEmailAtom(c: char) {
    !IsWs(c) && c != '@'
  }

  /** `^[^\s@]+@[^\s@]+\.[^\s@]+$`, read as the regular expression reads:
      a non-empty run, the `@` at `at`, a non-empty run, the `.` at `dot`,
      a non-empty run, where the runs hold only `[^\s@]` characters (the
      literal `.` is one of them too). */
  predicate MatchesEmail(s: string) {
    exists at, dot | 0 < at && at + 1 < dot && dot + 1 < |s| ::
      EmailSplit(s, at, dot)
  }

  predicate EmailSplit(s: string, at: int, dot: int)
    requires 0 <= at < |s| && 0 <= dot < |s|
  {
    s[at] == '@' && s[dot] == '.' &&
    forall k | 0 <= k < |s| && k != at :: IsEmailAtom(s[k])
  }

  /** The shape the email pattern accepts, stated without the pattern: no
      whitespace, exactly one `@`, a non-empty local part, and a domain that
      holds a `.` that is neither its first nor its last character. */
  predicate EmailShape(s: string) {
    && (forall k | 0 <= k < |s| :: !IsWs(s[k]))
    && exists at | 0 <= at < |s| :: OnlyAt(s, at) && at > 0 && DomainHasInnerDot(s[at + 1..])
  }

  /** `at` is the position of the one and only `@` in `s`. */
  predicate OnlyAt(s: string, at: int)
    requires 0 <= at < |s|
  {
    s[at] == '@' && forall k | 0 <= k < |s| && k != at :: s[k] != '@'
  }

  predicate DomainHasInnerDot(d: string) {
    exists j | 0 < j < |d| - 1 :: d[j] == '.'
  }

  /** The pattern and the shape describe the same strings. */
  lemma EmailPatternIsShape(s: string)
    ensures MatchesEmail(s) <==> EmailShape(s)
  {
    if MatchesEmail(s) {
      var at, dot :| 0 < at && at + 1 < dot && dot + 1 < |s| && EmailSplit(s, at, dot);
      var d := s[at + 1..];
      assert d[dot - at - 1] == '.';
      assert DomainHasInnerDot(d);
      assert OnlyAt(s, at);
    }
    if EmailShape(s) {
      var at :| 0 <= at < |s| && OnlyAt(s, at) && at > 0 && DomainHasInnerDot(s[at + 1..]);
      var d := s[at + 1..];
      var j :| 0 < j < |d| - 1 && d[j] == '.';
      assert s[at + 1 + j] == '.';
      assert EmailSplit(s, at, at + 1 + j);
    }
  }

  /** No pattern of the server accepts a string that holds whitespace, which
      is why a value with surrounding spaces is rejected once it is not blank. */
  lemma WhitespaceNeverMatches(s: string, k: int)
    requires 0 <= k < |s| && IsWs(s[k])
    ensures !IsMobile(s) && !IsPinCode(s) && !MatchesEmail(s)
  {
  }
}

=== FILE: relay.dfy ===
/** The server route's `POST` handler (app/api/save/route.js): the ordered
    validation chain, the normalised log entry, the append-only in-memory
    log, and the parameter list forwarded to Google Forms. The clock, the
    file write, the environment and the outbound fetch are inputs. */
module Relay {
  import opened Wrappers
  import opened Text
  import opened Patterns
  import opened Form

  /** The JSON body's fields; None is an absent key. */
  datatype Body = Body(
    name: Option<string>,
    mobile: Option<string>,
    email: Option<string>,
    occupation: Option<string>,
    interests: Option<string>,
    ageGroup: Option<string>,
    pinCode: Option<string>,
    referredBy: Option<string>)

  /** The two ways the handler throws before validating, both answered by
      the catch at app/api/save/route.js:111-113: a body that is not JSON
      makes `request.json()` throw (line 10), and a body that is JSON `null`
      makes the destructuring at line 13 throw. Any other JSON value
      destructures; a number, string or array reads as a `Body` with every
      field absent. */
  datatype Request = Unparseable | Json(body: Body)

  const MissingFields := "Missing required fields"
  const BadMobile := "Invalid mobile number format"
  const BadEmail := "Invalid email format"
  const BadPinCode := "Invalid PIN code format"
  const BadReferrer := "Invalid referred by mobile number format"
  const InternalError := "Internal server error"

  /** JavaScript truthiness of a string field: present and not "". */
  predicate Truthy(o: Option<string>) {
    o.Some? && o.value != ""
  }

  /** `x && x.trim() !== ""` */
  predicate Filled(o: Option<string>)
    ensures Filled(o) <==> o.Some? && !IsBlank(o.value)
  {
    Truthy(o) && Trim(o.value) != ""
  }

  /** The handler's checks, in source order; the first failing one answers
      400 with its message. Name is only checked for presence; the optional
      fields are checked only when they are not blank, and then as sent,
      untrimmed. */
  function Validate(b: Body): Option<string> {
    if !Truthy(b.name) || !Truthy(b.mobile) then Some(MissingFields)
    else if !IsMobile(b.mobile.value) then Some(BadMobile)
    else if Filled(b.email) && !MatchesEmail(b.email.value) then Some(BadEmail)
    else if Filled(b.pinCode) && !IsPinCode(b.pinCode.value) then Some(BadPinCode)
    else if Filled(b.referredBy) && !IsMobile(b.referredBy.value) then Some(BadReferrer)
    else None
  }

  /** One check of the chain: whether it passes, and its message. */
  datatype Check = Check(passes: bool, message: string)

  /** The checks as an ordered list of independent conditions. */
  function Checks(b: Body): seq<Check> {
    [ Check(Truthy(b.name) && Truthy(b.mobile), MissingFields),
      Check(b.mobile.Some? && IsMobile(b.mobile.value), BadMobile),
      Check(b.email.None? || IsBlank(b.email.value) || MatchesEmail(b.email.value), BadEmail),
      Check(b.pinCode.None? || IsBlank(b.pinCode.value) || IsPinCode(b.pinCode.value), BadPinCode),
      Check(b.referredBy.None? || IsBlank(b.referredBy.value) || IsMobile(b.referredBy.value), BadReferrer) ]
  }

  /** The message of the first failing check, None when all pass. */
  function FirstFailure(cs: seq<Check>): Option<string> {
    if cs == [] then None
    else if !cs[0].passes then Some(cs[0].message)
    else FirstFailure(cs[1..])
  }

  /** No failure is reported exactly when every check passes, and a
      reported message belongs to a failing check that only passing checks
      precede. */
  lemma {:induction false} FirstFailureSpec(cs: seq<Check>)
    ensures FirstFailure(cs) == None <==> forall i | 0 <= i < |cs| :: cs[i].passes
    ensures FirstFailure(cs).Some? ==> exists i | 0 <= i < |cs| ::
              !cs[i].passes && cs[i].message == FirstFailure(cs).value && forall j | 0 <= j < i :: cs[j].passes
  {
    if cs != [] && cs[0].passes {
      FirstFailureSpec(cs[1..]);
      if FirstFailure(cs).Some? {
        var i :| 0 <= i < |cs[1..]| && !cs[1..][i].passes && cs[1..][i].message == FirstFailure(cs).value &&
                 forall j | 0 <= j < i :: cs[1..][j].passes;
        assert !cs[i + 1].passes && forall j | 0 <= j < i + 1 :: cs[j].passes;
      } else {
        assert forall i | 1 <= i < |cs| :: cs[i] == cs[1..][i - 1];
      }
    } else if cs != [] {
      assert !cs[0].passes;
    }
  }

  /** The if-chain of the handler is the first failure of the ordered check
      list: the first failing check alone decides the message. */
  lemma ValidateIsFirstFailure(b: Body)
    ensures Validate(b) == FirstFailure(Checks(b))
  {
    var cs := Checks(b);
    assert cs[1..][1..][1..][1..][1..] == [];
    assert FirstFailure(cs[1..][1..][1..][1..]) == (if !cs[4].passes then Some(BadReferrer) else None);
    assert FirstFailure(cs[1..][1..][1..]) ==
             (if !cs[3].passes then Some(BadPinCode) else FirstFailure(cs[1..][1..][1..][1..]));
    assert FirstFailure(cs[1..][1..]) ==
             (if !cs[2].passes then Some(BadEmail) else FirstFailure(cs[1..][1..][1..]));
    assert FirstFailure(cs[1..]) == (if !cs[1].passes then Some(BadMobile) else FirstFailure(cs[1..][1..]));
  }

  /** 400 "Missing required fields" exactly when name or mobile is absent
      or empty; a blank but non-empty name passes every check there is on
      name. */
  lemma MissingFieldsIff(b: Body)
    ensures Validate(b) == Some(MissingFields) <==> !Truthy(b.name) || !Truthy(b.mobile)
    ensures Truthy(b.name) ==> Validate(b) == Validate(b.(name := Some(" ")))
  {
  }

  /** Once name and mobile are present, 400 "Invalid mobile number format"
      exactly when mobile is not ten digits led by 6..9. */
  lemma BadMobileIff(b: Body)
    requires Truthy(b.name) && Truthy(b.mobile)
    ensures Validate(b) == Some(BadMobile) <==> !IsMobile(b.mobile.value)
  {
  }

  /** A body whose name and mobile are present, whose mobile matches, and
      whose optional fields are each absent, empty or matching passes every
      check. */
  lemma AcceptedBody(b: Body)
    requires Truthy(b.name) && Truthy(b.mobile) && IsMobile(b.mobile.value)
    requires b.email.None? || IsBlank(b.email.value) || MatchesEmail(b.email.value)
    requires b.pinCode.None? || b.pinCode.value == [] || IsPinCode(b.pinCode.value)
    requires b.referredBy.None? || b.referredBy.value == [] || IsMobile(b.referredBy.value)
    ensures Validate(b) == None
  {
  }

  /** A blank optional field is never checked, while a non-blank one that
      holds whitespace anywhere, surrounding spaces included, always fails
      its check. */
  lemma OptionalFieldsTestedUntrimmed(b: Body, k: int)
    requires Truthy(b.name) && Truthy(b.mobile) && IsMobile(b.mobile.value)
    ensures ((b.email.None? || IsBlank(b.email.value)) &&
             (b.pinCode.None? || IsBlank(b.pinCode.value)) &&
             (b.referredBy.None? || IsBlank(b.referredBy.value))) ==> Validate(b) == None
    ensures b.email.Some? && !IsBlank(b.email.value) && 0 <= k < |b.email.value| && IsWs(b.email.value[k]) ==>
              Validate(b) == Some(BadEmail)
  {
    if b.email.Some? && !IsBlank(b.email.value) && 0 <= k < |b.email.value| && IsWs(b.email.value[k]) {
      WhitespaceNeverMatches(b.email.value, k);
    }
  }

  /** One accepted submission as stored in the log. */
  datatype UserEntry = UserEntry(
    id: int,
    name: string,
    mobile: string,
    email: string,
    occupation: string,
    interests: string,
    ageGroup: string,
    pinCode: string,
    referredBy: string,
    timestamp: string)

  /** `x || ""` */
  function OrEmpty(o: Option<string>): (r: string)
    ensures o.Some? ==> r == o.value
    ensures o.None? ==> r == ""
  {
    if Truthy(o) then o.value else ""
  }

  /** `userEntry`: name and mobile as sent, every optional field as sent or
      "" when absent, plus the given id (`Date.now()`) and timestamp. */
  function MakeEntry(b: Body, id: int, timestamp: string): (e: UserEntry)
    requires b.name.Some? && b.mobile.Some?
    ensures e.name == b.name.value && e.mobile == b.mobile.value
    ensures e.id == id && e.timestamp == timestamp
    ensures forall f | f in {Email, Occupation, Interests, AgeGroup, PinCode, ReferredBy} ::
              EntryField(e, f) == (if FieldOf(b, f).Some? then FieldOf(b, f).value else "")
  {
    UserEntry(id, b.name.value, b.mobile.value, OrEmpty(b.email), OrEmpty(b.occupation),
              OrEmpty(b.interests), OrEmpty(b.ageGroup), OrEmpty(b.pinCode), OrEmpty(b.referredBy),
              timestamp)
  }

  function FieldOf(b: Body, f: Field): Option<string> {
    match f
    case Name => b.name
    case Mobile => b.mobile
    case Email => b.email
    case Interests => b.interests
    case AgeGroup => b.ageGroup
    case Occupation => b.occupation
    case PinCode => b.pinCode
    case ReferredBy => b.referredBy
  }

  function EntryField(e: UserEntry, f: Field): string {
    match f
    case Name => e.name
    case Mobile => e.mobile
    case Email => e.email
    case Interests => e.interests
    case AgeGroup => e.ageGroup
    case Occupation => e.occupation
    case PinCode => e.pinCode
    case ReferredBy => e.referredBy
  }

  // ---- Google Forms forward ----

  /** The environment variables the forward reads; None is unset. */
  datatype Config = Config(
    formId: Option<string>,
    entryName: Option<string>,
    entryMobile: Option<string>,
    entryEmail: Option<string>,
    entryOccupation: Option<string>,
    entryInterests: Option<string>,
    entryAgeGroup: Option<string>,
    entryPinCode: Option<string>,
    entryReferredBy: Option<string>)

  function EntryId(cfg: Config, f: Field): Option<string> {
    match f
    case Name => cfg.entryName
    case Mobile => cfg.entryMobile
    case Email => cfg.entryEmail
    case Interests => cfg.entryInterests
    case AgeGroup => cfg.entryAgeGroup
    case Occupation => cfg.entryOccupation
    case PinCode => cfg.entryPinCode
    case ReferredBy => cfg.entryReferredBy
  }

  /** The forward happens only with a form id and the name and mobile entry
      ids all set. */
  predicate Configured(cfg: Config) {
    Truthy(cfg.formId) && Truthy(cfg.entryName) && Truthy(cfg.entryMobile)
  }

  /** One `params.append(key, value)`, tagged with the field it carries. */
  datatype Param = Param(field: Field, key: string, value: string)

  datatype FormsPost = FormsPost(url: string, params: seq<Param>)

  /** The order of the `append` calls. */
  function Rank(f: Field): nat {
    match f
    case Name => 0
    case Mobile => 1
    case Email => 2
    case Occupation => 3
    case Interests => 4
    case AgeGroup => 5
    case PinCode => 6
    case ReferredBy => 7
  }

  const OptionalOrder: seq<Field> := [Email, Occupation, Interests, AgeGroup, PinCode, ReferredBy]

  /** Strictly increasing rank, pairwise. */
  predicate Ascending(fs: seq<Field>) {
    forall i, j | 0 <= i < j < |fs| :: Rank(fs[i]) < Rank(fs[j])
  }

  /** The optional fields are the six besides name and mobile, listed in
      the order of their appends: the one at index `k` has rank `k + 2`. */
  lemma OptionalOrderFacts()
    ensures forall k | 0 <= k < |OptionalOrder| :: Rank(OptionalOrder[k]) == k + 2
  {
  }

  /** A field is forwarded when both its value and its entry id are set and
      non-empty; name and mobile always are once the forward happens. */
  predicate Forwarded(b: Body, cfg: Config, f: Field) {
    Truthy(FieldOf(b, f)) && Truthy(EntryId(cfg, f))
  }

  /** The forwarded fields among the optional fields from index `k` on, in
      append order. */
  function ForwardedFrom(b: Body, cfg: Config, k: nat): (r: seq<Field>)
    requires k <= |OptionalOrder|
    ensures forall i | 0 <= i < |r| :: Forwarded(b, cfg, r[i]) && Rank(r[i]) >= k + 2
    ensures Ascending(r)
    decreases |OptionalOrder| - k
  {
    if k == |OptionalOrder| then []
    else
      var rest := ForwardedFrom(b, cfg, k + 1);
      if Forwarded(b, cfg, OptionalOrder[k]) then
        OptionalOrderFacts();
        [OptionalOrder[k]] + rest
      else rest
  }

  /** Every forwarded optional field from index `k` on is selected. */
  lemma {:induction false} ForwardedFromComplete(b: Body, cfg: Config, k: nat, j: nat)
    requires k <= j < |OptionalOrder| && Forwarded(b, cfg, OptionalOrder[j])
    ensures OptionalOrder[j] in ForwardedFrom(b, cfg, k)
    decreases j - k
  {
    if k < j {
      ForwardedFromComplete(b, cfg, k + 1, j);
    }
  }

  /** The fields the forward appends, in append order: name and mobile,
      then the forwarded optional fields. */
  function ForwardedFields(b: Body, cfg: Config): (fs: seq<Field>)
    requires Configured(cfg) && Truthy(b.name) && Truthy(b.mobile)
    ensures |fs| >= 2 && fs[0] == Name && fs[1] == Mobile
    ensures forall i | 0 <= i < |fs| :: Forwarded(b, cfg, fs[i])
    ensures Ascending(fs)
  {
    var opt := ForwardedFrom(b, cfg, 0);
    NameMobileForwarded(b, cfg);
    NameMobileFirst(opt);
    [Name, Mobile] + opt
  }

  lemma NameMobileForwarded(b: Body, cfg: Config)
    requires Configured(cfg) && Truthy(b.name) && Truthy(b.mobile)
    ensures Forwarded(b, cfg, Name) && Forwarded(b, cfg, Mobile)
  {
  }

  /** Name and mobile put before ascending optional fields stay ascending. */
  lemma NameMobileFirst(opt: seq<Field>)
    requires Ascending(opt) && forall i | 0 <= i < |opt| :: Rank(opt[i]) >= 2
    ensures Ascending([Name, Mobile] + opt)
  {
    var fs := [Name, Mobile] + opt;
    assert forall j | 2 <= j < |fs| :: fs[j] == opt[j - 2];
  }

  /** Exactly the forwarded fields are listed. */
  lemma ForwardedFieldsComplete(b: Body, cfg: Config, f: Field)
    requires Configured(cfg) && Truthy(b.name) && Truthy(b.mobile)
    ensures f in ForwardedFields(b, cfg) <==> Forwarded(b, cfg, f)
  {
    var fs := ForwardedFields(b, cfg);
    if Forwarded(b, cfg, f) && f != Name && f != Mobile {
      OptionalOrderFacts();
      var j := Rank(f) - 2;
      assert OptionalOrder[j] == f;
      ForwardedFromComplete(b, cfg, 0, j);
      assert fs == [Name, Mobile] + ForwardedFrom(b, cfg, 0);
    }
  }

  /** One append: key `entry.<id>`, the value as sent. */
  function ParamFor(b: Body, cfg: Config, f: Field): (r: Param)
    requires Forwarded(b, cfg, f)
  {
    Param(f, "entry." + EntryId(cfg, f).value, FieldOf(b, f).value)
  }

  /** `params`: name and mobile first, then each optional field whose value
      and entry id are both set, in the order email, occupation, interests,
      ageGroup, pinCode, referredBy, each under the key `entry.<id>` with
      the value as sent. */
  function ForwardParams(b: Body, cfg: Config): (r: seq<Param>)
    requires Configured(cfg) && Truthy(b.name) && Truthy(b.mobile)
    ensures |r| >= 2 && r[0].field == Name && r[1].field == Mobile
    ensures forall i | 0 <= i < |r| ::
              && Forwarded(b, cfg, r[i].field)
              && r[i].key == "entry." + EntryId(cfg, r[i].field).value
              && r[i].value == FieldOf(b, r[i].field).value
    ensures forall i, j | 0 <= i < j < |r| :: Rank(r[i].field) < Rank(r[j].field)
  {
    var fs := ForwardedFields(b, cfg);
    var r := seq(|fs|, i requires 0 <= i < |fs| => ParamFor(b, cfg, fs[i]));
    assert forall i | 0 <= i < |r| :: r[i].field == fs[i];
    r
  }

  /** A field is appended exactly when its value and its entry id are both
      set and non-empty. */
  lemma ForwardParamsComplete(b: Body, cfg: Config, f: Field)
    requires Configured(cfg) && Truthy(b.name) && Truthy(b.mobile)
    ensures (exists i | 0 <= i < |ForwardParams(b, cfg)| :: ForwardParams(b, cfg)[i].field == f) <==>
              Forwarded(b, cfg, f)
  {
    ForwardedFieldsComplete(b, cfg, f);
    var r := ForwardParams(b, cfg);
    var fs := ForwardedFields(b, cfg);
    assert |r| == |fs| && forall i | 0 <= i < |r| :: r[i].field == fs[i];
    if Forwarded(b, cfg, f) {
      var i :| 0 <= i < |fs| && fs[i] == f;
      assert r[i].field == f;
    }
  }

  /** `formUrl` */
  function FormUrl(formId: string): string {
    "https://docs.google.com/forms/d/e/" + formId + "/formResponse"
  }

  // ---- The handler ----

  datatype Response = Response(status: int, success: bool, error: Option<string>)

  /** Whether the best-effort side steps worked: the file write and the
      Google Forms fetch. Their failures are caught and only logged. */
  datatype SideOutcomes = SideOutcomes(fileWritten: bool, forwardDelivered: bool)

  /** The response, the in-memory log after the call, the snapshot written
      to `data.json` (the whole log) and the Google Forms post, if any. */
  datatype Handled = Handled(response: Response, log: seq<UserEntry>, snapshot: Option<seq<UserEntry>>, forward: Option<FormsPost>)

  /** `POST`. Success exactly when the body parses and passes validation,
      whatever became of the file write and the forward; an accepted request
      appends exactly one entry and changes no earlier one, a rejected one
      leaves the log alone and forwards nothing. */
  function Handle(cfg: Config, log: seq<UserEntry>, now: int, timestamp: string, req: Request, sides: SideOutcomes): (r: Handled)
    ensures req.Unparseable? ==> r == Handled(Response(500, false, Some(InternalError)), log, None, None)
    ensures req.Json? ==> (r.response.success <==> Validate(req.body) == None)
    ensures req.Json? && Validate(req.body).Some? ==>
              r == Handled(Response(400, false, Validate(req.body)), log, None, None)
    ensures r.response.success ==>
              && r.response == Response(200, true, None)
              && |r.log| == |log| + 1 && r.log[..|log|] == log
              && r.log[|log|] == MakeEntry(req.body, now, timestamp)
              && r.snapshot == Some(r.log)
              && (r.forward.Some? <==> Configured(cfg))
    ensures req.Json? && r.response.success && r.forward.Some? ==>
              && Truthy(req.body.name) && Truthy(req.body.mobile)
              && r.forward.value == FormsPost(FormUrl(cfg.formId.value), ForwardParams(req.body, cfg))
  {
    match req
    case Unparseable => Handled(Response(500, false, Some(InternalError)), log, None, None)
    case Json(b) =>
      var err := Validate(b);
      if err.Some? then Handled(Response(400, false, err), log, None, None)
      else
        var log' := log + [MakeEntry(b, now, timestamp)];
        var forward := if Configured(cfg) then Some(FormsPost(FormUrl(cfg.formId.value), ForwardParams(b, cfg))) else None;
        Handled(Response(200, true, None), log', Some(log'), forward)
  }

  /** Two runs that differ only in what became of the file write and the
      forward give the same response and the same log. This holds by
      construction: both failures are caught and only logged
      (app/api/save/route.js:67-69, 106-108), so `Handle` never reads
      `sides`; the lemma records that the model keeps it that way. */
  lemma SideStepsNeverDecide(cfg: Config, log: seq<UserEntry>, now: int, timestamp: string, req: Request, a: SideOutcomes, c: SideOutcomes)
    ensures Handle(cfg, log, now, timestamp, req, a) == Handle(cfg, log, now, timestamp, req, c)
  {
  }
}

=== FILE: session.dfy ===
/** A user's session with the form: a sequence of events, each handled as
    one sequential step. `Wired` says which change events the rendered form
    can raise: the text inputs send change events for name, mobile, email,
    occupation, pinCode and referredBy, the custom-interest box exists only
    while "Other" is selected, and the two selects are interests and
    ageGroup (components/form-component.tsx:228-411). The mobile and
    referredBy inputs take at most ten characters and the PIN code input at
    most six (their `maxLength`, lines 262, 387 and 409). Every submit event
    is let through: the browser's own check of the `type="email"` input
    (line 274), which can stop the submit before `handleSubmit` runs, is
    not part of this model. */
module Session {
  import opened Form
  import opened FormValidation
  import opened FormController
  import opened Submission

  datatype Event =
    | Typed(name: InputName, value: string)
    | Selected(field: Field, value: string)
    | Submitted(relay: RelayReply, main: CouponReply, referrer: CouponReply)

  function Step(p: Reading, s: FormState, e: Event): FormState {
    match e
    case Typed(name, v) => HandleInputChange(p, s, name, v)
    case Selected(f, v) => HandleSelectChange(p, s, f, v)
    case Submitted(relay, main, referrer) => Submit(p, s, relay, main, referrer).state
  }

  function Run(p: Reading, s: FormState, es: seq<Event>): FormState
    decreases |es|
  {
    if es == [] then s else Run(p, Step(p, s, es[0]), es[1..])
  }

  /** What a text input's `maxLength` lets the user type. */
  predicate FitsInput(f: Field, v: string) {
    && (f == Mobile || f == ReferredBy ==> |v| <= 10)
    && (f == PinCode ==> |v| <= 6)
  }

  predicate Wired(s: FormState, e: Event) {
    match e
    case Typed(FieldInput(f), v) => f in {Name, Mobile, Email, Occupation, PinCode, ReferredBy} && FitsInput(f, v)
    case Typed(CustomInterestInput, _) => s.otherSelected
    case Selected(f, _) => f in {Interests, AgeGroup}
    case Submitted(_, _, _) => true
  }

  /** Every event of `es` can be raised in the state it meets. */
  predicate WiredRun(p: Reading, s: FormState, es: seq<Event>)
    decreases |es|
  {
    es == [] || (Wired(s, es[0]) && WiredRun(p, Step(p, s, es[0]), es[1..]))
  }

  /** The state invariant of the form between events: errors describe the
      current values, the "Other" flag and the custom interest follow the
      interests select, and no submission is left in progress. */
  predicate Inv(p: Reading, s: FormState) {
    ErrorsCurrent(p, s) && InterestsConsistent(s) && !s.isSubmitting
  }

  /** One step of the form keeps the invariant. */
  lemma StepKeepsInv(p: Reading, s: FormState, e: Event)
    requires Inv(p, s) && Wired(s, e)
    ensures Inv(p, Step(p, s, e))
  {
    var r := Step(p, s, e);
    match e
    case Typed(FieldInput(f), v) =>
      forall g | g in r.errors
        ensures r.errors[g] == ValidateField(p, g, Get(r.data, g))
      {
        if g != f {
          assert g in s.errors;
        }
      }
      assert Get(r.data, Interests) == s.data.interests;
    case Typed(CustomInterestInput, v) =>
    case Selected(f, v) =>
      forall g | g in r.errors
        ensures r.errors[g] == ValidateField(p, g, Get(r.data, g))
      {
        if g != f {
          assert g in s.errors;
        }
      }
      if f != Interests {
        assert Get(r.data, Interests) == s.data.interests;
      }
    case Submitted(relay, main, referrer) =>
  }

  /** The invariant holds after any session the form can produce. */
  lemma {:induction false} RunKeepsInv(p: Reading, s: FormState, es: seq<Event>)
    requires Inv(p, s) && WiredRun(p, s, es)
    ensures Inv(p, Run(p, s, es))
    decreases |es|
  {
    if es != [] {
      StepKeepsInv(p, s, es[0]);
      RunKeepsInv(p, Step(p, s, es[0]), es[1..]);
    }
  }

  /** From the initial state, every reachable state keeps the invariant; in
      particular the submit button is disabled exactly when the form is
      invalid, and the interests sent out are the custom text only while
      "Other" is selected. */
  lemma ReachableStates(p: Reading, es: seq<Event>)
    requires WiredRun(p, Initial, es)
    ensures Inv(p, Run(p, Initial, es))
    ensures var s := Run(p, Initial, es);
            (SubmitDisabled(p, s) <==> !IsFormValid(p, s.data)) &&
            (s.otherSelected ==> Outbound(s).interests == s.customInterest) &&
            (!s.otherSelected ==> Outbound(s) == s.data)
  {
    RunKeepsInv(p, Initial, es);
  }

  /** The mobile the form holds never exceeds the input's ten characters. */
  lemma {:induction false} MobileStaysShort(p: Reading, s: FormState, es: seq<Event>)
    requires |s.data.mobile| <= 10 && WiredRun(p, s, es)
    ensures |Run(p, s, es).data.mobile| <= 10
    decreases |es|
  {
    if es != [] {
      var e := es[0];
      var t := Step(p, s, e);
      match e {
        case Typed(FieldInput(f), v) =>
          assert t.data.mobile == Get(t.data, Mobile);
          if f != Mobile {
            assert Get(t.data, Mobile) == s.data.mobile;
          }
        case Typed(CustomInterestInput, v) =>
        case Selected(f, v) =>
          assert f != Mobile;
          assert t.data.mobile == Get(t.data, Mobile) == s.data.mobile;
        case Submitted(relay, main, referrer) =>
      }
      MobileStaysShort(p, t, es[1..]);
    }
  }

  /** As written, the client's mobile pattern wants eleven characters while
      the input takes at most ten, so no session ever gets past the guard:
      the submit button stays disabled and nothing is ever sent. */
  lemma AsWrittenNeverSubmits(es: seq<Event>, relay: RelayReply, main: CouponReply, referrer: CouponReply)
    requires WiredRun(AsWritten, Initial, es)
    ensures var s := Run(AsWritten, Initial, es);
            !IsFormValid(AsWritten, s.data) && SubmitDisabled(AsWritten, s) &&
            Submit(AsWritten, s, relay, main, referrer).requests == []
  {
    var s := Run(AsWritten, Initial, es);
    MobileStaysShort(AsWritten, Initial, es);
    assert !MobileFormat(AsWritten, s.data.mobile);
    FormValidIff(AsWritten, s.data);
    assert !IsFormValid(AsWritten, s.data);
    assert Submit(AsWritten, s, relay, main, referrer).requests == [];
  }
}

=== FILE: submission.dfy ===
/** The decisions `handleSubmit` makes (components/form-component.tsx):
    the interests sent to the relay, the campaign lookup, the two coupon
    payloads, and which requests go out given the replies that come back.
    The network is not modelled: each reply is an input, and a call whose
    `fetch` or `json()` throws is the `Threw` reply. */
module Submission {
  import opened Wrappers
  import opened Text
  import opened Form
  import opened FormValidation
  import opened FormController

  const DefaultCampaign := "C100183"
  const MainRequestId := "250000012"
  const ReferrerRequestId := "250000013"
  const Channel := "WEB"
  const Program := "81"
  const NoCouponCode := "No coupon code received"
  const NetworkErrorAlert := "Network error occurred. Please try again."

  /** `campaignMap` */
  const CampaignTable: map<string, string> := map[
    "Desktop & Laptops" := "C100190",
    "Printers" := "C100182",
    "Accessories" := "C100184",
    "Other" := "C100184"
  ]

  /** `campaignMap[interests] || "C100183"` */
  function CampaignFor(interests: string): string {
    if interests in CampaignTable && CampaignTable[interests] != "" then CampaignTable[interests]
    else DefaultCampaign
  }

  /** Every listed interest has its campaign and anything else, "" and a
      custom interest included, falls back to the default campaign. */
  lemma CampaignLookup(interests: string)
    ensures interests == "Desktop & Laptops" ==> CampaignFor(interests) == "C100190"
    ensures interests == "Printers" ==> CampaignFor(interests) == "C100182"
    ensures interests == "Accessories" || interests == "Other" ==> CampaignFor(interests) == "C100184"
    ensures interests !in {"Desktop & Laptops", "Printers", "Accessories", "Other"} ==>
              CampaignFor(interests) == DefaultCampaign
  {
  }

  /** `dataToSend`: the form data with "Other" replaced by the custom
      interest; every other field goes out exactly as entered. */
  function Outbound(s: FormState): (r: FormData)
    ensures s.data.interests == "Other" ==> r.interests == s.customInterest
    ensures s.data.interests != "Other" ==> r == s.data
    ensures forall f | f != Interests :: Get(r, f) == Get(s.data, f)
  {
    s.data.(interests := if s.data.interests == "Other" then s.customInterest else s.data.interests)
  }

  datatype CouponPayload = CouponPayload(
    channelID: string,
    requestID: string,
    campaignID: string,
    issuerMobileNo: string,
    programID: string)

  /** One outbound request, in the order the submit handler issues them. */
  datatype Request = RelayPost(payload: FormData) | CouponPost(coupon: CouponPayload)

  /** The reply of `/api/save` as parsed JSON, or a thrown fetch. */
  datatype RelayReply = RelayAnswered(success: bool, error: string) | RelayThrew

  /** The coupon service's reply: `ok` is the HTTP status check, and an
      absent `data.couponCode` or `responseMessage` is "". */
  datatype CouponReply = CouponAnswered(ok: bool, couponCode: string, responseMessage: string) | CouponThrew

  /** What one submit attempt does: the requests in order, the alert shown
      (None when nothing is shown) and the state it leaves behind. */
  datatype Outcome = Outcome(requests: seq<Request>, alert: Option<string>, state: FormState)

  /** The referrer coupon is issued when `referredBy && referredBy.trim() !== ""`. */
  function HasReferrer(d: FormData): (r: bool)
    ensures r <==> !IsBlank(d.referredBy)
  {
    d.referredBy != "" && Trim(d.referredBy) != ""
  }

  function Coupon(requestId: string, campaign: string, mobile: string): CouponPayload {
    CouponPayload(Channel, requestId, campaign, mobile, Program)
  }

  const SuccessPrefix := "Form submitted successfully! Your coupon code is: "
  const FailurePrefix := "Coupon issuance failed: "

  /** The two prefixes differ at index 23, the last one of the shorter. */
  lemma PrefixesDiffer()
    ensures |FailurePrefix| == 24 && |SuccessPrefix| > 24
    ensures SuccessPrefix[23] == 'u' && FailurePrefix[23] == ' '
  {
    assert "Form submitted successfully! Your coupon code is: "[23] == 'u';
  }

  predicate StartsWith(s: string, prefix: string) {
    |prefix| <= |s| && s[..|prefix|] == prefix
  }

  /** The alert after the coupon calls, decided by the main coupon's reply:
      the success alert exactly when the reply is ok and carries a code,
      then ending in that code; otherwise the failure alert, ending in the
      reply's message, or in "No coupon code received" when it has none. */
  function CouponAlert(ok: bool, couponCode: string, responseMessage: string): (r: string)
    ensures StartsWith(r, SuccessPrefix) <==> ok && couponCode != ""
    ensures StartsWith(r, FailurePrefix) <==> !(ok && couponCode != "")
    ensures ok && couponCode != "" ==> r[|SuccessPrefix|..] == couponCode
    ensures !(ok && couponCode != "") && responseMessage != "" ==> r[|FailurePrefix|..] == responseMessage
    ensures !(ok && couponCode != "") && responseMessage == "" ==> r[|FailurePrefix|..] == NoCouponCode
  {
    if ok && couponCode != "" then
      var r := SuccessPrefix + couponCode;
      assert r[..|SuccessPrefix|] == SuccessPrefix;
      PrefixesDiffer();
      assert r[23] == SuccessPrefix[23];
      r
    else
      var r := FailurePrefix + (if responseMessage != "" then responseMessage else NoCouponCode);
      assert r[..|FailurePrefix|] == FailurePrefix;
      PrefixesDiffer();
      assert r[23] == FailurePrefix[23];
      r
  }

  predicate IsCoupon(q: Request) {
    q.CouponPost?
  }

  /** The coupon requests that follow a relay reply with `success` true:
      the main coupon for the submitter's mobile, then, when the main call
      did not throw and `referredBy` is not blank, the referrer's coupon,
      both for the campaign of the raw interests. */
  function CouponPlan(d: FormData, main: CouponReply): (q: seq<Request>)
    ensures 1 <= |q| <= 2
    ensures q[0] == CouponPost(CouponPayload(Channel, MainRequestId, CampaignFor(d.interests), d.mobile, Program))
    ensures |q| == 2 ==>
              q[1] == CouponPost(CouponPayload(Channel, ReferrerRequestId, CampaignFor(d.interests), d.referredBy, Program))
    ensures forall i | 0 <= i < |q| ::
              IsCoupon(q[i]) && q[i].coupon.campaignID == CampaignFor(d.interests) &&
              q[i].coupon.channelID == Channel && q[i].coupon.programID == Program
  {
    var campaign := CampaignFor(d.interests);
    var mainPost := CouponPost(Coupon(MainRequestId, campaign, d.mobile));
    if main.CouponAnswered? && HasReferrer(d) then
      [mainPost, CouponPost(Coupon(ReferrerRequestId, campaign, d.referredBy))]
    else [mainPost]
  }

  /** The referrer's coupon is requested exactly when the main coupon call
      did not throw and `referredBy` is not blank. */
  lemma ReferrerCouponIff(d: FormData, main: CouponReply)
    ensures |CouponPlan(d, main)| == 2 <==> main.CouponAnswered? && !IsBlank(d.referredBy)
  {
  }

  /** The alert after a relay reply with `success` true: the network alert
      when a coupon call threw, otherwise the main coupon's outcome. */
  function CouponPlanAlert(d: FormData, main: CouponReply, referrer: CouponReply): (r: string)
    ensures main.CouponThrew? ==> r == NetworkErrorAlert
    ensures main.CouponAnswered? && !IsBlank(d.referredBy) && referrer.CouponThrew? ==> r == NetworkErrorAlert
    ensures main.CouponAnswered? && (IsBlank(d.referredBy) || referrer.CouponAnswered?) ==>
              r == CouponAlert(main.ok, main.couponCode, main.responseMessage)
  {
    match main
    case CouponThrew => NetworkErrorAlert
    case CouponAnswered(ok, code, message) =>
      if HasReferrer(d) && referrer.CouponThrew? then NetworkErrorAlert
      else CouponAlert(ok, code, message)
  }

  /** `handleSubmit` as a plan. An invalid form returns before anything
      happens. Otherwise the relay is posted first and only a relay reply
      with `success` true leads on to the coupon requests; `isSubmitting` is
      false at the end whatever happened, and nothing else in the state
      changes. */
  function Submit(p: Reading, s: FormState, relay: RelayReply, main: CouponReply, referrer: CouponReply): (r: Outcome)
    ensures !IsFormValid(p, s.data) ==> r == Outcome([], None, s)
    ensures IsFormValid(p, s.data) ==>
              && |r.requests| >= 1
              && r.requests[0] == RelayPost(Outbound(s))
              && r.state == s.(isSubmitting := false)
              && r.alert.Some?
    ensures |r.requests| >= 2 <==> IsFormValid(p, s.data) && relay.RelayAnswered? && relay.success
    ensures |r.requests| >= 2 ==> r.requests[1..] == CouponPlan(s.data, main)
    ensures IsFormValid(p, s.data) && relay.RelayAnswered? && relay.success ==>
              r.alert == Some(CouponPlanAlert(s.data, main, referrer))
    ensures |r.requests| <= 3
  {
    if !IsFormValid(p, s.data) then Outcome([], None, s)
    else
      var done := s.(isSubmitting := false);
      var relayPost := RelayPost(Outbound(s));
      match relay
      case RelayThrew => Outcome([relayPost], Some(NetworkErrorAlert), done)
      case RelayAnswered(success, error) =>
        if !success then Outcome([relayPost], Some("Submission failed: " + error), done)
        else Outcome([relayPost] + CouponPlan(s.data, main), Some(CouponPlanAlert(s.data, main, referrer)), done)
  }

  /** A failed or unreachable relay, or a form the guard stops, issues no
      coupon request. */
  lemma NoCouponWithoutRelaySuccess(p: Reading, s: FormState, relay: RelayReply, main: CouponReply, referrer: CouponReply)
    requires !(IsFormValid(p, s.data) && relay.RelayAnswered? && relay.success)
    ensures var q := Submit(p, s, relay, main, referrer).requests;
            forall i | 0 <= i < |q| :: !IsCoupon(q[i])
  {
    var q := Submit(p, s, relay, main, referrer).requests;
    if IsFormValid(p, s.data) {
      assert q == [RelayPost(Outbound(s))];
    }
  }

  /** After a relay reply with `success` true, the relay post is followed by
      coupon requests only, all for the campaign of the raw interests, on the
      fixed channel and program. */
  lemma CouponsAfterRelaySuccess(p: Reading, s: FormState, relay: RelayReply, main: CouponReply, referrer: CouponReply)
    ensures var q := Submit(p, s, relay, main, referrer).requests;
            IsFormValid(p, s.data) && relay.RelayAnswered? && relay.success ==>
              && |q| >= 2
              && forall i | 1 <= i < |q| ::
                   IsCoupon(q[i]) && q[i].coupon.campaignID == CampaignFor(s.data.interests) &&
                   q[i].coupon.channelID == Channel && q[i].coupon.programID == Program
  {
    if IsFormValid(p, s.data) && relay.RelayAnswered? && relay.success {
      var q := Submit(p, s, relay, main, referrer).requests;
      var c := CouponPlan(s.data, main);
      assert q[1] == c[0];
      if |q| == 3 {
        assert q[2] == c[1];
      }
    }
  }

  /** The referrer's coupon always differs from the main one in its request
      ID, and agrees with it on campaign, channel and program. */
  lemma CouponsDifferOnlyInIdAndMobile(p: Reading, s: FormState, relay: RelayReply, main: CouponReply, referrer: CouponReply)
    ensures var q := Submit(p, s, relay, main, referrer).requests;
            |q| == 3 ==>
              q[1].coupon.requestID != q[2].coupon.requestID &&
              q[1].coupon.(requestID := ReferrerRequestId, issuerMobileNo := s.data.referredBy) == q[2].coupon
  {
  }

  /** The alert is the relay's error exactly when the relay answered with
      `success` false, and the network alert when the relay call threw. */
  lemma RelayFailureAlerts(p: Reading, s: FormState, relay: RelayReply, main: CouponReply, referrer: CouponReply)
    ensures IsFormValid(p, s.data) && relay == RelayThrew ==>
              Submit(p, s, relay, main, referrer).alert == Some(NetworkErrorAlert)
    ensures IsFormValid(p, s.data) && relay.RelayAnswered? && !relay.success ==>
              Submit(p, s, relay, main, referrer).alert == Some("Submission failed: " + relay.error)
  {
  }
}

=== FILE: text.dfy ===
/** Character classes and `String.prototype.trim` as JavaScript defines them. */
module Text {

  /** The Unicode space separators (category Zs) outside the U+2000..U+200A block,
      plus the ECMAScript WhiteSpace and LineTerminator extras. */
  const WsChars: set<char> := {
    '\t', '\n', '\U{B}', '\U{C}', '\r', ' ', '\U{A0}', '\U{1680}',
    '\U{2028}', '\U{2029}', '\U{202F}', '\U{205F}', '\U{3000}', '\U{FEFF}'
  }

  /** What the regular-expression class `\s` matches and what `trim` removes. */
  predicate IsWs(c: char) {
    c in WsChars || '\U{2000}' <= c <= '\U{200A}'
  }

  /** What `\d` matches: ASCII digits only. */
  predicate IsDigit(c: char) {
    '0' <= c <= '9'
  }

  predicate IsAsciiLetter(c: char) {
    'A' <= c <= 'Z' || 'a' <= c <= 'z'
  }

  /** A string that `trim` turns into "" (the empty string included). */
  predicate IsBlank(s: string) {
    forall i | 0 <= i < |s| :: IsWs(s[i])
  }

  /** Drops leading whitespace: the result is a suffix, everything dropped is
      whitespace, and the result does not start with whitespace. */
  function TrimStart(s: string): (r: string)
    ensures |r| <= |s| && r == s[|s| - |r|..]
    ensures forall i | 0 <= i < |s| - |r| :: IsWs(s[i])
    ensures r == [] || !IsWs(r[0])
  {
    if |s| > 0 && IsWs(s[0]) then TrimStart(s[1..]) else s
  }

  /** Drops trailing whitespace: the result is a prefix, everything dropped is
      whitespace, and the result does not end with whitespace. */
  function TrimEnd(s: string): (r: string)
    ensures |r| <= |s| && r == s[..|r|]
    ensures forall i | |r| <= i < |s| :: IsWs(s[i])
    ensures r == [] || !IsWs(r[|r| - 1])
  {
    if |s| > 0 && IsWs(s[|s| - 1]) then TrimEnd(s[..|s| - 1]) else s
  }

  /** `r` occurs in `s` starting at index `k`. */
  predicate SliceAt(s: string, k: nat, r: string) {
    k + |r| <= |s| && s[k..k + |r|] == r
  }

  /** `s.trim()`: the longest infix of `s` that neither starts nor ends with
      whitespace, and it is empty exactly when `s` is blank. */
  function Trim(s: string): (r: string)
    ensures exists k | 0 <= k <= |s| - |r| :: SliceAt(s, k, r)
    ensures r != [] ==> !IsWs(r[0]) && !IsWs(r[|r| - 1])
    ensures r == [] <==> IsBlank(s)
  {
    var t := TrimStart(s);
    var r := TrimEnd(t);
    assert SliceAt(s, |s| - |t|, r);
    r
  }
}

=== FILE: wrappers.dfy ===
/** The optional value used for JavaScript's `undefined`: an absent JSON key,
    an absent environment variable, a field without an error message. */
module Wrappers {

  datatype Option<+T> = None | Some(value: T) {

    /** Returns the value held in Some, or `default` for None */
    function GetOr(default: T): T {
      match this
      case Some(v) => v
      case None => default
    }
  }
}
